=== FILE: README.md ===
# Restaurant finder CLI — a Dafny model

`app.js` is a command-line script. It takes one or more addresses joined with
`&&` and an optional radius. For each address, one after the other, it asks
the Yelp business-search API for the businesses within that radius. It then
prints one block per address. Each business line shows a colour-coded distance
and a colour-coded price tier.

This project models the decision-making parts of that script as pure Dafny
functions and proves properties about them:

- **Text** (`text.dfy`): JavaScript's `trim`, `split("&&")` and `join`, and the
  decimal rendering of integers.
- **Args** (`args.dfy`): how the two positional arguments become the locations
  and the radius, including the defaults.
- **Search** (`search.dfy`): the request URL, built by plain concatenation with
  no encoding.
- **Orchestrator** (`orchestrator.dfy`): the sequential fetch loop. The HTTP
  client is a function parameter from URL to either a list of businesses or a
  rejection reason.
- **Presenter** (`presenter.dfy`): the price indicator, the proximity
  indicator and the line structure of the output. Colours are an enum.
- **Program** (`program.dfy`): the whole run, from the arguments to the printed
  output, as written and corrected.
- **Wrappers** (`wrappers.dfy`): `Option` and `Result`.

Where the script's JSDoc comments (app.js:39 `@param {Array} usersLocations`,
app.js:121 `@param {int} radius`) and its code disagree, the model follows the
code:

- Without a first argument, the locations expression yields the default
  address as a bare string, not a one-element list (app.js:18). The `join` on
  app.js:28 then throws, so such a run prints only the banner and an error.
- `howFar` is called without a radius (app.js:79). Every comparison is then
  against `NaN`, so every distance is shown green. The documented thresholds
  only apply in the corrected model.

## Model

| member | source | states |
|---|---|---|
| `Text.Split` | app.js:16 | splitting always yields at least one piece |
| `Text.SplitCount` | app.js:16 | the number of pieces is the number of non-overlapping "&&" occurrences, counted left to right, plus one |
| `Text.JoinSplit` | app.js:16 | joining the untrimmed pieces with "&&" gives back the argument exactly |
| `Text.SplitWellFormed` | app.js:16 | no piece contains "&&", and no piece but the last ends with '&' (the cut is always the leftmost one) |
| `Text.SplitJoin` | app.js:16 | splitting a join of such well-formed pieces gives back the pieces, so split and join are inverse bijections |
| `Text.JoinAppend` | app.js:28 | joining two non-empty lists joined end to end is the first join, one separator, then the second join; with the one-piece case of `Text.Join` this fixes every join |
| `Text.Join` | app.js:28 | an empty list joins to ""; a one-piece list joins to that piece; joining a non-empty list keeps the first piece as a prefix, and the length is the pieces' total length plus one separator between each pair of neighbours |
| `Text.TrimStart` | app.js:17 | drops a maximal run of leading whitespace and keeps the rest as a suffix |
| `Text.TrimEnd` | app.js:17 | drops a maximal run of trailing whitespace and keeps the rest as a prefix |
| `Text.TrimBoth` | app.js:17 | for any whitespace set, the result has no whitespace at either end, and the input is whitespace + result + whitespace |
| `Text.Trim` | app.js:17 | the same, for the ECMAScript whitespace and line-terminator characters |
| `Text.TrimPadding` | app.js:17 | whitespace, then a core without edge whitespace, then whitespace trims to exactly that core |
| `Text.TrimUnique` | app.js:17 | any core without edge whitespace that is padded only by whitespace is exactly the trim |
| `Text.TrimIdempotent` | app.js:17 | trimming twice equals trimming once |
| `Text.NatToString` | app.js:126 | a number prints as non-empty decimal digits with no leading zero |
| `Text.DecimalRoundTrip` | app.js:126 | reading back the printed digits gives the number |
| `Text.IntToStringReadsBack` | app.js:126 | a distance prints with a leading '-' exactly when negative, followed by decimal digits that read back as its absolute value |
| `Text.IntToStringInjective` | app.js:126 | different distances print differently |
| `Text.DigitsPrintBack` | app.js:20 | a digit string without a leading zero is the printed form of its own value |
| `Args.Argument` | app.js:15 | an argument counts only when it is present and non-empty, as JavaScript truthiness decides |
| `Args.Parse` | app.js:15-20 | with no usable first argument the locations are the bare default string, otherwise one trimmed piece per "&&" piece; with no usable second argument the radius is 1000, otherwise the argument text unchanged |
| `Args.ExplicitLocations` | app.js:15-18 | an explicit first argument yields occurrences+1 locations in order; each has no edge whitespace and is its piece with only whitespace removed around it |
| `Args.DefaultRadiusText` | app.js:20 | the default radius is rendered as "1000" |
| `Args.LocationList` | app.js:15-18 | reading the parse result as a list: the default string becomes a one-element list and an explicit list is kept |
| `Args.ParseLocations` | app.js:15-18 | corrected parse: never empty; exactly [default address] without a first argument; otherwise the same list the script builds |
| `Args.NumericRadius` | app.js:125-127 | the default radius is numeric; a given radius is numeric exactly when it is a non-empty digit string, its value is the decimal value of that string ("05" reads as 5), and the value prints back as the text unless it has a leading zero |
| `Args.RadiusText` | app.js:64 | a given radius is concatenated as its text verbatim; the default is concatenated as decimal digits whose value is the default |
| `Args.NumericRadiusRoundTrip` | app.js:20 | a radius typed as the digits of n is read as n |
| `Search.SearchPathLayout` | app.js:64 | the search path carries the location and the radius text verbatim at fixed offsets, separated by "&radius=" |
| `Search.RequestUrlLayout` | app.js:92 | the requested URL is the host followed by the endpoint, nothing in between |
| `Search.SearchUrlLayout` | app.js:63-67 | the URL is host + "/businesses/search?location=" + location + "&radius=" + radius, with no escaping |
| `Search.SearchUrlRoundTrip` | app.js:64 | a location without '&' and the radius text are carried verbatim and read back exactly |
| `Search.SearchUrlInjective` | app.js:64 | for '&'-free locations, equal URLs mean equal location and equal radius text |
| `Search.SearchUrlAmbiguous` | app.js:64 | a location holding "&radius=" gives the same URL as a different location and radius, because nothing is encoded |
| `Orchestrator.FetchBusinessesUrl` | app.js:63-67 | fetching a location asks the API for the prefix, the location, "&radius=" and the radius text, verbatim |
| `Orchestrator.FetchEach` | app.js:43-54 | succeeds exactly when every fetch succeeds; result i is (locations[i], radius, businesses fetched for locations[i]), with the same length and order; otherwise fails with the error of some location all of whose predecessors succeeded |
| `Orchestrator.FirstFailureDecides` | app.js:45-50 | the first failing location's error is the loop's error, and no records are returned |
| `Orchestrator.FetchAll` | app.js:43-54 | the imperative loop, awaiting one fetch at a time and pushing records, computes exactly the fold |
| `Presenter.HowExpensive` | app.js:107-115 | "€€€" is red, "€€" yellow and "€" green, each shown as itself; anything else, absent included, is a yellow "?" (each colour in both directions) |
| `Presenter.PriceSeverityCountsEuros` | app.js:107-115 | among known tiers, the colour severity is the number of euro signs minus one |
| `Presenter.HowFar` | app.js:124-131 | the text is distance + "m"; red exactly when distance > radius − 200; yellow exactly when not red and distance > radius/2; a missing radius gives green |
| `Presenter.ProximityMonotone` | app.js:124-131 | for a fixed radius, a greater distance never gets a less severe colour |
| `Presenter.ProximityDefaultRadius` | app.js:124-131 | for radius 1000: red above 800, yellow above 500, otherwise green (800 and 500 fall on the nearer side) |
| `Presenter.BusinessLine` | app.js:79 | only the proximity and price segments are coloured, the other two are plain; the line reads a bar, a tab, then name + " @" + distance + "m for " + price indicator, with the proximity and price segments in places 1 and 3 |
| `Presenter.Block` | app.js:76-82 | one location prints a header, one line per business in business order, and a separator |
| `Presenter.RenderAppend` | app.js:75-83 | the output for two consecutive result lists is the first output followed by the second |
| `Presenter.LineCountAppend` | app.js:75-83 | the line count of consecutive result lists is the sum of their counts |
| `Presenter.Render` | app.js:75-83 | the output has Σ(number of businesses + 2) lines; with at least one location it opens with the first location's header and closes with a separator |
| `Presenter.DisplayAsWritten` | app.js:75-83 | the output as called from app.js:30-32 has the same line count and the same first and last lines |
| `Presenter.LineAt` | app.js:78-79 | business j of location k is printed on the line right after the header plus j, as that business's line |
| `Presenter.RenderSplit` | app.js:75-83 | the output is the lines of locations 0..k−1, then location k's block, then the lines of the locations after it |
| `Presenter.RenderLayout` | app.js:75-83 | location k's block (header, business lines, separator) is the slice of the output that starts right after the lines of locations 0..k−1 |
| `Presenter.AsWrittenAlwaysGreen` | app.js:79 | as called, every business's distance is shown green |
| `Presenter.ThreadedProximity` | app.js:79 | with the radius passed, each business's distance is classified against its location's numeric radius |
| `Presenter.AsWrittenMisclassifiesFar` | app.js:79 | a business 950 m away in a 1000 m search shows green as written and red when corrected |
| `Program.Run` | app.js:26-33 | a run always opens with the banner, and it makes exactly two `console.log` calls (the banner and the join type error) exactly when there is no first argument |
| `Program.Configuration` | app.js:28 | the configuration line fails with "join is not a function" exactly when the locations are the bare default string |
| `Program.NoLocationsArgumentAborts` | app.js:26-33 | as written, a run without a first argument prints only the banner and the type error, whatever the API returns |
| `Program.CorrectedSearchesDefault` | app.js:15-18 | corrected, such a run searches around the default address and prints its results or its rejection |
| `Program.RunWithLocations` | app.js:26-33 | with locations, a run prints the prelude and then either every block or only the first rejection (no partial results) |

## Findings

| source | as written | input that shows it | evidently intended | confidence | as-written member | corrected member |
|---|---|---|---|---|---|---|
| app.js:15-18 | without a first argument the locations are the default address as a bare string, and `userLocations.join` on app.js:28 throws a TypeError | no command-line arguments | the default address as a one-element list, searched like any other | high; not executed | `Program.NoLocationsArgumentAborts` | `Program.CorrectedSearchesDefault` |
| app.js:79 | `howFar(aBusiness)` is called without the radius, so both comparisons are against NaN and every distance shows green | radius 1000, a business 950 m away: shown green | compare against the location's radius: red here | high; not executed | `Presenter.AsWrittenAlwaysGreen` | `Presenter.ThreadedProximity` |

`Program.RunCorrected` applies both corrections: `Args.ParseLocations` for the
locations and `Presenter.Display` for the output.

## Left out

- The HTTP request (`request-promise`, the `Authorization` and JSON options) and JSON decoding are not modelled. The search API is a function parameter from the URL to a list of businesses or a rejection reason.
- The API key and the `.config` module are external configuration and are not modelled.
- `chalk` escape codes and `console.log` are not modelled. Output is a sequence with one entry per `console.log` call, each made of plain or coloured segments (the closing banner's entry, `Banner + "\n\n"`, prints three terminal lines, and counts are of entries); `printOK` is a green segment and `printNOK` a red one.
- The async IIFE and promise plumbing are not modelled beyond their order. The three prelude `console.log` calls are made before any fetch, and a rejection anywhere ends the run through `.catch`.
- `Program.Describe`: an error prints as its first line only; `e.stack` frames are not modelled.
- A response without a `businesses` field is not modelled. The script would get `undefined` and throw only when displaying it, after earlier blocks were printed. The API parameter returns a list or a rejection.
- `Args.NumericRadius`: JavaScript's `Number` coercion of the radius text is modelled only for plain digit strings. Signs, decimals, exponents, hex and surrounding whitespace are treated as NaN. It matters only in the corrected proximity indicator, since as written no radius reaches `howFar`.
- `Presenter.HowFar`: distances are integers. The API returns floating-point metres, and their JavaScript rendering (decimals, exponent notation) is not modelled.
- Percent-encoding of the query values is not modelled. The script does none; `Search.SearchUrlAmbiguous` shows the consequence, and no encoding function is defined.
- `Text.Whitespace` follows the ECMAScript whitespace and line-terminator set as of current Unicode. It does not track older Unicode versions (for example U+180E).

=== FILE: args.dfy ===
/** The two positional command-line arguments: the locations, split on "&&" and
    trimmed, and the search radius. `args` stands for `process.argv.slice(2)`:
    the arguments after the interpreter and the script path. */
module Args {
  import opened Wrappers
  import Text

  /** The address used when no locations argument is given. */
  const DefaultAddress: string := "4 rue de la Pierre Lev\U{00E9}e, 75011 Paris"

  /** The radius, in metres, used when no radius argument is given. */
  const DefaultRadius: nat := 1000

  /** What the locations expression evaluates to. With an argument it is an
      array of trimmed pieces; without one it is the default address as a bare
      string, not an array holding it. */
  datatype Parsed = Locations(addresses: seq<string>) | DefaultString(address: string)

  /** The radius is either the second argument, kept as the text the user
      typed, or the number 1000. */
  datatype Radius = Given(text: string) | Default(meters: nat)

  datatype Arguments = Arguments(locations: Parsed, radius: Radius)

  /** Argument `i` in JavaScript's truthiness: an absent argument and an empty
      string are both falsy; every other string, "0" included, is truthy. */
  function Argument(args: seq<string>, i: nat): (a: Option<string>)
    ensures a.Some? <==> i < |args| && args[i] != ""
    ensures a.Some? ==> a.value == args[i]
  {
    if i < |args| && args[i] != "" then Some(args[i]) else None
  }

  /** Evaluates the `userLocations` and `radius` expressions. */
  function Parse(args: seq<string>): (p: Arguments)
    ensures p.locations.DefaultString? <==> Argument(args, 0).None?
    ensures p.locations.DefaultString? ==> p.locations.address == DefaultAddress
    ensures p.locations.Locations? ==>
      var pieces := Text.Split(args[0]);
      && |p.locations.addresses| == |pieces|
      && forall i :: 0 <= i < |pieces| ==> p.locations.addresses[i] == Text.Trim(pieces[i])
    ensures p.radius.Default? <==> Argument(args, 1).None?
    ensures p.radius.Default? ==> p.radius.meters == DefaultRadius
    ensures p.radius.Given? ==> p.radius.text == args[1]
  {
    var locations :=
      match Argument(args, 0)
      case Some(a) => Locations(seq(|Text.Split(a)|, i requires 0 <= i < |Text.Split(a)| => Text.Trim(Text.Split(a)[i])))
      case None => DefaultString(DefaultAddress);
    var radius :=
      match Argument(args, 1)
      case Some(r) => Given(r)
      case None => Default(DefaultRadius);
    Arguments(locations, radius)
  }

  /** An explicit locations argument yields one location per "&&"-separated
      piece, in order; the pieces re-join to the argument; each location is its
      piece without the surrounding whitespace and with its interior intact. */
  lemma ExplicitLocations(args: seq<string>)
    requires |args| >= 1 && args[0] != ""
    ensures Parse(args).locations.Locations?
    ensures
      var pieces := Text.Split(args[0]);
      var ls := Parse(args).locations.addresses;
      && |ls| == Text.CountSeparators(args[0]) + 1
      && Text.Join(pieces, Text.Separator) == args[0]
      && forall i :: 0 <= i < |ls| ==> Text.NoEdgeWhitespace(ls[i], Text.Whitespace) && Text.Padded(pieces[i], ls[i], Text.Whitespace)
  {
    Text.SplitCount(args[0]);
    Text.JoinSplit(args[0]);
  }

  /** The locations as a list whichever branch was taken: the corrected reading
      of the default, in which the default address is a one-element list. */
  function LocationList(p: Parsed): (ls: seq<string>)
    ensures |ls| >= 1 || (p.Locations? && p.addresses == [])
    ensures p.DefaultString? ==> ls == [p.address]
    ensures p.Locations? ==> ls == p.addresses
  {
    match p
    case Locations(addresses) => addresses
    case DefaultString(address) => [address]
  }

  /** The corrected parse of the locations: never empty, the default address
      when no argument is given, otherwise the trimmed pieces. */
  function ParseLocations(args: seq<string>): (ls: seq<string>)
    ensures |ls| >= 1
    ensures Argument(args, 0).None? ==> ls == [DefaultAddress]
    ensures Argument(args, 0).Some? ==> Parse(args).locations == Locations(ls)
  {
    LocationList(Parse(args).locations)
  }

  /** The radius as it appears when concatenated into a string: the argument
      text verbatim, or the decimal digits of the default. */
  function RadiusText(r: Radius): (t: string)
    ensures r.Given? ==> t == r.text
    ensures r.Default? ==> t != [] && Text.AllDigits(t) && Text.DecimalValue(t) == r.meters && t[0] != '-'
  {
    match r
    case Given(text) => text
    case Default(meters) =>
      Text.DecimalRoundTrip(meters);
      Text.NatToString(meters)
  }

  /** The radius as a number, as the comparisons in the proximity indicator
      coerce it: the default as is, an argument only when it is a plain
      decimal digit string (anything else coerces to NaN here). */
  function NumericRadius(r: Radius): (n: Option<int>)
    ensures r.Default? ==> n == Some(r.meters as int)
    ensures r.Given? ==> (n.Some? <==> r.text != [] && Text.AllDigits(r.text))
    ensures n.Some? ==> n.value >= 0
    ensures r.Given? && n.Some? ==> n.value == Text.DecimalValue(r.text)
    ensures r.Given? && n.Some? ==> Text.NatToString(n.value as nat) == r.text || r.text[0] == '0'
  {
    match r
    case Default(meters) => Some(meters)
    case Given(text) =>
      if text != [] && Text.AllDigits(text) then
        Text.DigitsPrintBack(text);
        Some(Text.DecimalValue(text))
      else None
  }

  /** The default radius appears as "1000" in the URL and the configuration. */
  lemma DefaultRadiusText()
    ensures RadiusText(Default(DefaultRadius)) == "1000"
  {
  }

  /** A radius typed as the decimal digits of `n` is read back as `n`. */
  lemma NumericRadiusRoundTrip(n: nat)
    ensures NumericRadius(Given(Text.NatToString(n))) == Some(n)
  {
    Text.DecimalRoundTrip(n);
  }
}

=== FILE: orchestrator.dfy ===
/** The per-location fetch loop. The HTTP client is a parameter: a function from
    the requested URL to either the decoded list of businesses or the reason the
    request was rejected. */
module Orchestrator {
  import opened Wrappers
  import Args
  import Search

  /** One business of a search response. A missing `price` is `None`. */
  datatype Business = Business(name: string, distance: int, price: Option<string>)

  /** One entry of the fetch loop's result: the searched address, the radius
      it was searched with, and the businesses found. */
  datatype LocationResult = LocationResult(address: string, radius: Args.Radius, businesses: seq<Business>)

  /** The search API: the businesses listed at a URL, or why the request failed. */
  type Api = string -> Result<seq<Business>, string>

  /** The businesses found around one location. */
  function FetchBusinesses(api: Api, location: string, radius: Args.Radius): Result<seq<Business>, string>
  {
    api(Search.SearchUrl(location, radius))
  }

  /** The fetch for a location asks the API for the search URL of that
      location and radius, laid out verbatim. */
  lemma FetchBusinessesUrl(api: Api, location: string, radius: Args.Radius)
    ensures FetchBusinesses(api, location, radius)
         == api(Search.LocationPrefix + location + Search.RadiusKey + Args.RadiusText(radius))
  {
    Search.SearchUrlLayout(location, radius);
  }

  /** Every location in `locations` is fetched successfully. */
  predicate AllFetched(api: Api, locations: seq<string>, radius: Args.Radius) {
    forall i :: 0 <= i < |locations| ==> FetchBusinesses(api, locations[i], radius).Success?
  }

  /** The result record the loop builds for one location. */
  function ResultFor(api: Api, location: string, radius: Args.Radius): LocationResult
    requires FetchBusinesses(api, location, radius).Success?
  {
    LocationResult(location, radius, FetchBusinesses(api, location, radius).value)
  }

  /** The fetch loop as a left-to-right fold. It succeeds exactly when every
      location is fetched, with one record per location in input order; it
      fails with the reason of the first location whose fetch fails, and then
      no record is returned at all. */
  function FetchEach(api: Api, locations: seq<string>, radius: Args.Radius): (r: Result<seq<LocationResult>, string>)
    ensures r.Success? <==> AllFetched(api, locations, radius)
    ensures r.Success? ==>
      && |r.value| == |locations|
      && forall i :: 0 <= i < |locations| ==> r.value[i] == ResultFor(api, locations[i], radius)
    ensures r.Failure? ==>
      exists k :: 0 <= k < |locations|
        && AllFetched(api, locations[..k], radius)
        && FetchBusinesses(api, locations[k], radius) == Failure(r.error)
    decreases |locations|
  {
    if locations == [] then Success([])
    else
      FetchedSplit(api, locations, radius);
      match FetchBusinesses(api, locations[0], radius)
      case Failure(e) =>
        assert AllFetched(api, locations[..0], radius);
        Failure(e)
      case Success(bs) =>
        match FetchEach(api, locations[1..], radius)
        case Failure(e) =>
          ghost var k :| 0 <= k < |locations| - 1
            && AllFetched(api, locations[1..][..k], radius)
            && FetchBusinesses(api, locations[1..][k], radius) == Failure(e);
          FetchedBeforeShift(api, locations, radius, k);
          Failure(e)
        case Success(rest) =>
          Success([LocationResult(locations[0], radius, bs)] + rest)
  }

  /** All locations are fetched exactly when the first one is and all the
      others are. */
  lemma FetchedSplit(api: Api, locations: seq<string>, radius: Args.Radius)
    requires locations != []
    ensures AllFetched(api, locations, radius)
        <==> FetchBusinesses(api, locations[0], radius).Success? && AllFetched(api, locations[1..], radius)
    ensures forall i :: 1 <= i < |locations| ==> locations[i] == locations[1..][i - 1]
  {
    assert forall i :: 1 <= i < |locations| ==> locations[i] == locations[1..][i - 1];
  }

  /** A fetched prefix of the tail, after a fetched head, is a fetched prefix
      one longer. */
  lemma FetchedBeforeShift(api: Api, locations: seq<string>, radius: Args.Radius, k: nat)
    requires k < |locations| - 1
    requires FetchBusinesses(api, locations[0], radius).Success?
    requires AllFetched(api, locations[1..][..k], radius)
    ensures AllFetched(api, locations[..k + 1], radius)
    ensures locations[1..][k] == locations[k + 1]
  {
    assert locations[..k + 1] == [locations[0]] + locations[1..][..k];
  }

  /** The first failing location decides the error: the error of a failed fold
      is determined by where the failures are, not by anything after the first. */
  lemma FirstFailureDecides(api: Api, locations: seq<string>, radius: Args.Radius, k: nat)
    requires k < |locations|
    requires AllFetched(api, locations[..k], radius)
    requires FetchBusinesses(api, locations[k], radius).Failure?
    ensures FetchEach(api, locations, radius) == Failure(FetchBusinesses(api, locations[k], radius).error)
  {
    var r := FetchEach(api, locations, radius);
    assert !AllFetched(api, locations, radius);
    var j :| 0 <= j < |locations|
      && AllFetched(api, locations[..j], radius)
      && FetchBusinesses(api, locations[j], radius) == Failure(r.error);
    PrefixFetched(api, locations, radius, k);
    PrefixFetched(api, locations, radius, j);
    assert j == k;
  }

  /** `AllFetched` of a prefix, read back index by index. */
  lemma PrefixFetched(api: Api, locations: seq<string>, radius: Args.Radius, k: nat)
    requires k <= |locations| && AllFetched(api, locations[..k], radius)
    ensures forall i :: 0 <= i < k ==> FetchBusinesses(api, locations[i], radius).Success?
  {
  }

  /** `fetchBusinessesForEachLocations`: the loop itself, awaiting one fetch at a
      time and pushing one record per location; a rejected fetch ends it. */
  method FetchAll(api: Api, locations: seq<string>, radius: Args.Radius) returns (r: Result<seq<LocationResult>, string>)
    ensures r == FetchEach(api, locations, radius)
  {
    var results: seq<LocationResult> := [];
    var i := 0;
    while i < |locations|
      invariant 0 <= i <= |locations|
      invariant AllFetched(api, locations[..i], radius)
      invariant |results| == i
      invariant forall j :: 0 <= j < i ==> results[j] == ResultFor(api, locations[j], radius)
    {
      var fetched := FetchBusinesses(api, locations[i], radius);
      if fetched.Failure? {
        FirstFailureDecides(api, locations, radius, i);
        return Failure(fetched.error);
      }
      assert locations[..i + 1] == locations[..i] + [locations[i]];
      results := results + [LocationResult(locations[i], radius, fetched.value)];
      i := i + 1;
    }
    assert locations[..i] == locations;
    assert results == FetchEach(api, locations, radius).value;
    r := Success(results);
  }
}

=== FILE: presenter.dfy ===
/** The console output of the fetched results: per location a header, one line
    per business with a coloured proximity and a coloured price indicator, and
    a separator. Terminal styling is abstracted to a colour attached to a
    segment of text. */
module Presenter {
  import opened Wrappers
  import Text
  import Args
  import Orchestrator

  datatype Colour = Red | Yellow | Green

  /** A piece of a printed line: plain text, or text in one colour. */
  datatype Segment = Plain(text: string) | Styled(colour: Colour, text: string)

  /** What one `console.log` call prints, as the segments it is made of. */
  type Line = seq<Segment>

  /** What a line shows once the colours are stripped. */
  function LineText(l: Line): string
  {
    if l == [] then "" else l[0].text + LineText(l[1..])
  }

  /** How alarming a colour is: green below yellow below red. */
  function Severity(c: Colour): nat
  {
    match c
    case Green => 0
    case Yellow => 1
    case Red => 2
  }

  // ---------------------------------------------------------------------------
  // Price indicator
  // ---------------------------------------------------------------------------

  const Euro: char := '\U{20AC}'
  const Expensive: string := [Euro, Euro, Euro]
  const Moderate: string := [Euro, Euro]
  const Cheap: string := [Euro]

  /** The price tiers the indicator recognises. */
  predicate KnownPrice(price: Option<string>) {
    price == Some(Expensive) || price == Some(Moderate) || price == Some(Cheap)
  }

  /** `howExpensive`: a known tier is shown as itself, red for three euro
      signs, yellow for two, green for one; anything else, an absent price
      included, is a yellow "?". */
  function HowExpensive(b: Orchestrator.Business): (s: Segment)
    ensures s.Styled?
    ensures s.text == (if KnownPrice(b.price) then b.price.value else "?")
    ensures s.colour == Red <==> b.price == Some(Expensive)
    ensures s.colour == Green <==> b.price == Some(Cheap)
    ensures s.colour == Yellow <==> !KnownPrice(b.price) || b.price == Some(Moderate)
  {
    if b.price == Some(Expensive) then Styled(Red, b.price.value)
    else if b.price == Some(Moderate) then Styled(Yellow, b.price.value)
    else if b.price == Some(Cheap) then Styled(Green, b.price.value)
    else Styled(Yellow, "?")
  }

  /** More euro signs never look cheaper: among the known tiers the colour's
      severity is the number of euro signs minus one. */
  lemma PriceSeverityCountsEuros(b: Orchestrator.Business)
    requires KnownPrice(b.price)
    ensures Severity(HowExpensive(b).colour) == |b.price.value| - 1
  {
  }

  // ---------------------------------------------------------------------------
  // Proximity indicator
  // ---------------------------------------------------------------------------

  /** `howFar`: the distance in metres, red when beyond 200 m short of the
      radius, else yellow when beyond half the radius, else green. Comparisons
      are strict. A missing radius (`None`) makes every comparison false, as
      JavaScript's comparisons with NaN are, so the distance shows green. */
  function HowFar(distance: int, radius: Option<int>): (s: Segment)
    ensures s.Styled? && s.text == Text.IntToString(distance) + "m"
    ensures s.colour == Red <==> radius.Some? && distance + 200 > radius.value
    ensures s.colour == Yellow <==>
      radius.Some? && distance + 200 <= radius.value && 2 * distance > radius.value
    ensures radius.None? ==> s.colour == Green
  {
    var shown := Text.IntToString(distance) + "m";
    match radius
    case None => Styled(Green, shown)
    case Some(r) =>
      if distance > r - 200 then Styled(Red, shown)
      else if distance as real > r as real / 2.0 then Styled(Yellow, shown)
      else Styled(Green, shown)
  }

  /** Farther never looks nearer: for a fixed radius the severity of the
      proximity colour does not decrease with the distance. */
  lemma ProximityMonotone(d1: int, d2: int, radius: Option<int>)
    requires d1 <= d2
    ensures Severity(HowFar(d1, radius).colour) <= Severity(HowFar(d2, radius).colour)
  {
  }

  /** The thresholds for the default radius of 1000 m: red above 800 m,
      yellow above 500 m, green otherwise; 800 m and 500 m themselves fall on
      the nearer side. */
  lemma ProximityDefaultRadius(d: int)
    ensures HowFar(d, Some(1000)).colour == (if d > 800 then Red else if d > 500 then Yellow else Green)
  {
  }

  // ---------------------------------------------------------------------------
  // Lines
  // ---------------------------------------------------------------------------

  /** The header printed before the businesses of a location. */
  function Header(address: string): Line
  {
    [Plain("Restaurants @ " + address + ":")]
  }

  /** The line printed after the businesses of a location. */
  const Separator: Line := [Plain("--------------------------")]

  /** The line of one business: name, proximity indicator, price indicator. */
  function BusinessLine(b: Orchestrator.Business, radius: Option<int>): (l: Line)
    ensures |l| == 4 && l[1] == HowFar(b.distance, radius) && l[3] == HowExpensive(b)
    ensures l[0].Plain? && l[2].Plain?
    ensures LineText(l) == "|\t" + b.name + " @" + Text.IntToString(b.distance) + "m for " + HowExpensive(b).text
  {
    var l := [Plain("|\t" + b.name + " @"), HowFar(b.distance, radius), Plain(" for "), HowExpensive(b)];
    LineTextOfFour(l[0], l[1], l[2], l[3]);
    assert l == [l[0], l[1], l[2], l[3]];
    l
  }

  /** The text of a four-segment line is the four texts in order. */
  lemma LineTextOfFour(a: Segment, b: Segment, c: Segment, d: Segment)
    ensures LineText([a, b, c, d]) == a.text + b.text + c.text + d.text
  {
    assert [d][1..] == [];
    assert LineText([d]) == d.text + LineText([]) == d.text;
    assert [c, d][1..] == [d];
    assert LineText([c, d]) == c.text + d.text;
    assert [b, c, d][1..] == [c, d];
    assert LineText([b, c, d]) == b.text + (c.text + d.text);
    assert [a, b, c, d][1..] == [b, c, d];
  }

  /** Which radius reaches the proximity indicator. As written, the call site
      passes none; threaded, it passes the location's radius as a number. */
  datatype Wiring = AsWritten | Threaded

  function ProximityRadius(r: Orchestrator.LocationResult, w: Wiring): Option<int>
  {
    match w
    case AsWritten => None
    case Threaded => Args.NumericRadius(r.radius)
  }

  /** The lines of one location: header, one line per business in order,
      separator. */
  function Block(r: Orchestrator.LocationResult, w: Wiring): (ls: seq<Line>)
    ensures |ls| == |r.businesses| + 2
    ensures ls[0] == Header(r.address) && ls[|ls| - 1] == Separator
    ensures forall j :: 0 <= j < |r.businesses| ==>
      ls[j + 1] == BusinessLine(r.businesses[j], ProximityRadius(r, w))
  {
    var lines := BusinessLines(r.businesses, ProximityRadius(r, w));
    var ls := [Header(r.address)] + lines + [Separator];
    assert forall j :: 0 <= j < |lines| ==> ls[j + 1] == lines[j] by {
      forall j | 0 <= j < |lines| ensures ls[j + 1] == lines[j] {
        assert ls[1..1 + |lines|] == lines;
      }
    }
    ls
  }

  /** One line per business, in order. */
  function BusinessLines(bs: seq<Orchestrator.Business>, radius: Option<int>): (ls: seq<Line>)
    ensures |ls| == |bs|
    ensures forall j :: 0 <= j < |bs| ==> ls[j] == BusinessLine(bs[j], radius)
  {
    seq(|bs|, j requires 0 <= j < |bs| => BusinessLine(bs[j], radius))
  }

  /** The whole output of `displayBusinesses`, location after location. */
  function Render(rs: seq<Orchestrator.LocationResult>, w: Wiring): (out: seq<Line>)
    ensures |out| == LineCount(rs)
    ensures rs != [] ==> out[0] == Header(rs[0].address) && out[|out| - 1] == Separator
  {
    if rs == [] then [] else Block(rs[0], w) + Render(rs[1..], w)
  }

  /** `displayBusinesses` as written: no radius reaches the proximity indicator. */
  function DisplayAsWritten(rs: seq<Orchestrator.LocationResult>): (out: seq<Line>)
    ensures |out| == LineCount(rs)
    ensures rs != [] ==> out[0] == Header(rs[0].address) && out[|out| - 1] == Separator
  {
    Render(rs, AsWritten)
  }

  /** `displayBusinesses` with each location's radius passed to the proximity
      indicator. */
  function Display(rs: seq<Orchestrator.LocationResult>): seq<Line>
  {
    Render(rs, Threaded)
  }

  /** The number of lines the results take: each location's businesses plus
      its header and its separator. */
  function LineCount(rs: seq<Orchestrator.LocationResult>): nat
  {
    if rs == [] then 0 else |rs[0].businesses| + 2 + LineCount(rs[1..])
  }

  /** Rendering distributes over concatenation of the results. */
  lemma {:induction false} RenderAppend(a: seq<Orchestrator.LocationResult>, b: seq<Orchestrator.LocationResult>, w: Wiring)
    ensures Render(a + b, w) == Render(a, w) + Render(b, w)
    decreases |a|
  {
    if a == [] {
      assert a + b == b;
    } else {
      assert (a + b)[1..] == a[1..] + b;
      RenderAppend(a[1..], b, w);
    }
  }

  /** Counting distributes over concatenation of the results. */
  lemma {:induction false} LineCountAppend(a: seq<Orchestrator.LocationResult>, b: seq<Orchestrator.LocationResult>)
    ensures LineCount(a + b) == LineCount(a) + LineCount(b)
    decreases |a|
  {
    if a == [] {
      assert a + b == b;
    } else {
      assert (a + b)[1..] == a[1..] + b;
      LineCountAppend(a[1..], b);
    }
  }

  /** Where each block lands: the lines of location `k` are its block, and
      they start right after the lines of the locations before it. */
  lemma RenderLayout(rs: seq<Orchestrator.LocationResult>, w: Wiring, k: nat)
    requires k < |rs|
    ensures
      var out := Render(rs, w);
      var start := LineCount(rs[..k]);
      && start + |rs[k].businesses| + 2 <= |out|
      && out[start..start + |rs[k].businesses| + 2] == Block(rs[k], w)
  {
    var pre, post := rs[..k], rs[k + 1..];
    RenderSplit(rs, w, k);
    InMiddle(Render(rs, w), Render(pre, w), Block(rs[k], w), Render(post, w));
  }

  /** The output around location `k`: the lines before it, its block, and the
      lines after it. */
  lemma RenderSplit(rs: seq<Orchestrator.LocationResult>, w: Wiring, k: nat)
    requires k < |rs|
    ensures Render(rs, w) == Render(rs[..k], w) + Block(rs[k], w) + Render(rs[k + 1..], w)
  {
    var pre, post := rs[..k], rs[k + 1..];
    assert rs == pre + ([rs[k]] + post);
    RenderAppend(pre, [rs[k]] + post, w);
    assert ([rs[k]] + post)[1..] == post;
  }

  /** Business `j` of location `k` is printed on its own line, right after
      the header of its block. */
  lemma LineAt(rs: seq<Orchestrator.LocationResult>, w: Wiring, k: nat, j: nat)
    requires k < |rs| && j < |rs[k].businesses|
    ensures LineCount(rs[..k]) + 1 + j < |Render(rs, w)|
    ensures Render(rs, w)[LineCount(rs[..k]) + 1 + j] == BusinessLine(rs[k].businesses[j], ProximityRadius(rs[k], w))
  {
    var start, block, out := LineCount(rs[..k]), Block(rs[k], w), Render(rs, w);
    RenderLayout(rs, w, k);
    SliceIndex(out, start, start + |block|, j + 1);
    assert out[start + 1 + j] == out[start + (j + 1)];
    assert block[j + 1] == BusinessLine(rs[k].businesses[j], ProximityRadius(rs[k], w));
  }

  /** An element of a slice is the element at the shifted index. */
  lemma SliceIndex<T>(s: seq<T>, from: nat, to: nat, i: nat)
    requires from <= to <= |s| && i < to - from
    ensures s[from..to][i] == s[from + i]
  {
  }

  /** The middle part of a three-part concatenation, sliced back out. */
  lemma InMiddle<T>(s: seq<T>, a: seq<T>, b: seq<T>, c: seq<T>)
    requires s == a + b + c
    ensures |a| + |b| <= |s| && s[|a|..|a| + |b|] == b
  {
  }

  /** As written, every business shows its distance in green, whatever the
      radius and the distance. */
  lemma AsWrittenAlwaysGreen(rs: seq<Orchestrator.LocationResult>, k: nat, j: nat)
    requires k < |rs| && j < |rs[k].businesses|
    ensures LineCount(rs[..k]) + 1 + j < |DisplayAsWritten(rs)|
    ensures
      var line := DisplayAsWritten(rs)[LineCount(rs[..k]) + 1 + j];
      |line| == 4 && line[1] == Styled(Green, Text.IntToString(rs[k].businesses[j].distance) + "m")
  {
    LineAt(rs, AsWritten, k, j);
  }

  /** With the radius threaded through, business `j` of location `k` is
      coloured by its distance against that location's numeric radius. */
  lemma ThreadedProximity(rs: seq<Orchestrator.LocationResult>, k: nat, j: nat)
    requires k < |rs| && j < |rs[k].businesses|
    ensures LineCount(rs[..k]) + 1 + j < |Display(rs)|
    ensures
      var line := Display(rs)[LineCount(rs[..k]) + 1 + j];
      |line| == 4 && line[1] == HowFar(rs[k].businesses[j].distance, Args.NumericRadius(rs[k].radius))
  {
    LineAt(rs, Threaded, k, j);
  }

  /** A business 950 m away in a 1000 m search: as written it shows green,
      with the radius threaded through it shows red. */
  lemma AsWrittenMisclassifiesFar()
    ensures
      var rs := [Orchestrator.LocationResult("A", Args.Default(1000), [Orchestrator.Business("B", 950, None)])];
      && |DisplayAsWritten(rs)| == 3 && |DisplayAsWritten(rs)[1]| == 4
      && DisplayAsWritten(rs)[1][1].colour == Green
      && |Display(rs)| == 3 && |Display(rs)[1]| == 4
      && Display(rs)[1][1].colour == Red
  {
  }
}

=== FILE: program.dfy ===
/** The whole run of the script: a banner, the configuration line, the fetch
    loop, then either the results or the error that ended the run. The output
    is kept in order, one `Presenter.Line` per `console.log` call (the
    closing banner's call prints three terminal lines). */
module Program {
  import opened Wrappers
  import Text
  import Args
  import Orchestrator
  import Presenter

  /** Why a run ended early: a JavaScript type error, or a rejected request. */
  datatype Failure = TypeError(message: string) | Rejected(reason: string)

  /** The type error of calling `join` on the default address, a string. */
  const JoinNotAFunction: Failure := TypeError("userLocations.join is not a function")

  const Banner: string := "#############"

  /** The text an error prints as (its stack frames are not modelled). */
  function Describe(f: Failure): string
  {
    match f
    case TypeError(message) => "TypeError: " + message
    case Rejected(reason) => reason
  }

  /** The red line an error is reported on. */
  function ErrorLine(f: Failure): Presenter.Line
  {
    [Presenter.Styled(Presenter.Red, Describe(f))]
  }

  /** The configuration summary for a radius and a list of locations. */
  function ConfigurationText(radius: Args.Radius, locations: seq<string>): string
  {
    "Configuration: " + Args.RadiusText(radius) + "m around " + Text.Join(locations, " and ")
  }

  /** The configuration line as written: it joins the locations, which only
      works when they are a list; on the bare default string `join` is not a
      function and the run fails there. */
  function Configuration(a: Args.Arguments): (r: Result<string, Failure>)
    ensures r.Failure? <==> a.locations.DefaultString?
    ensures r.Failure? ==> r.error == JoinNotAFunction
    ensures r.Success? ==> r.value == ConfigurationText(a.radius, a.locations.addresses)
  {
    match a.locations
    case DefaultString(_) => Failure(JoinNotAFunction)
    case Locations(addresses) => Success(ConfigurationText(a.radius, addresses))
  }

  /** The three `console.log` calls made before any fetch; the last one
      prints the banner followed by two blank lines. */
  function Prelude(config: string): seq<Presenter.Line>
  {
    [[Presenter.Plain(Banner)], [Presenter.Styled(Presenter.Green, config)], [Presenter.Plain(Banner + "\n\n")]]
  }

  /** What is printed after the prelude: the results once every location has
      been fetched, or the first rejection. */
  function Outcome(fetched: Result<seq<Orchestrator.LocationResult>, string>, w: Presenter.Wiring): seq<Presenter.Line>
  {
    match fetched
    case Failure(reason) => [ErrorLine(Rejected(reason))]
    case Success(results) => Presenter.Render(results, w)
  }

  /** The script as written, for the arguments `args` and the search API `api`. */
  function Run(args: seq<string>, api: Orchestrator.Api): (out: seq<Presenter.Line>)
    ensures |out| >= 2 && out[0] == [Presenter.Plain(Banner)]
    ensures |out| == 2 <==> Args.Argument(args, 0).None?
    ensures Args.Argument(args, 0).None? ==> out[1] == ErrorLine(JoinNotAFunction)
  {
    var a := Args.Parse(args);
    match Configuration(a)
    case Failure(e) => [[Presenter.Plain(Banner)], ErrorLine(e)]
    case Success(config) =>
      var fetched := Orchestrator.FetchEach(api, a.locations.addresses, a.radius);
      assert |Outcome(fetched, Presenter.AsWritten)| >= 1 by {
        if fetched.Success? {
          assert |fetched.value| == |Text.Split(args[0])| >= 1;
        }
      }
      Prelude(config) + Outcome(fetched, Presenter.AsWritten)
  }

  /** The script with both defects corrected: the default address is a
      one-element list, and each location's radius reaches the proximity
      indicator. */
  function RunCorrected(args: seq<string>, api: Orchestrator.Api): seq<Presenter.Line>
  {
    var locations := Args.ParseLocations(args);
    var radius := Args.Parse(args).radius;
    Prelude(ConfigurationText(radius, locations))
      + Outcome(Orchestrator.FetchEach(api, locations, radius), Presenter.Threaded)
  }

  /** As written, a run without a locations argument prints the banner and the
      type error, and never reaches the search API. */
  lemma NoLocationsArgumentAborts(args: seq<string>, api: Orchestrator.Api)
    requires Args.Argument(args, 0).None?
    ensures Run(args, api) == [[Presenter.Plain(Banner)], ErrorLine(JoinNotAFunction)]
  {
  }

  /** Corrected, a run without a locations argument searches around the
      default address and prints its configuration and its results. */
  lemma CorrectedSearchesDefault(args: seq<string>, api: Orchestrator.Api)
    requires Args.Argument(args, 0).None?
    ensures
      var radius := Args.Parse(args).radius;
      var fetched := Orchestrator.FetchBusinesses(api, Args.DefaultAddress, radius);
      var out := RunCorrected(args, api);
      && out[..3] == Prelude("Configuration: " + Args.RadiusText(radius) + "m around " + Args.DefaultAddress)
      && (fetched.Failure? ==> out[3..] == [ErrorLine(Rejected(fetched.error))])
      && (fetched.Success? ==>
            out[3..] == Presenter.Display([Orchestrator.LocationResult(Args.DefaultAddress, radius, fetched.value)]))
  {
    var radius := Args.Parse(args).radius;
    var locations := [Args.DefaultAddress];
    var r := Orchestrator.FetchEach(api, locations, radius);
    var fetched := Orchestrator.FetchBusinesses(api, Args.DefaultAddress, radius);
    if fetched.Failure? {
      Orchestrator.FirstFailureDecides(api, locations, radius, 0);
    } else {
      assert r.value == [Orchestrator.LocationResult(Args.DefaultAddress, radius, fetched.value)];
    }
  }

  /** With a locations argument, a run either prints the prelude and then every
      location's block, when every fetch succeeds, or the prelude and then only
      the first rejection: no location's results are shown at all. */
  lemma RunWithLocations(args: seq<string>, api: Orchestrator.Api)
    requires Args.Argument(args, 0).Some?
    ensures
      var a := Args.Parse(args);
      var locations := a.locations.addresses;
      var fetched := Orchestrator.FetchEach(api, locations, a.radius);
      var out := Run(args, api);
      && out[..3] == Prelude(ConfigurationText(a.radius, locations))
      && (Orchestrator.AllFetched(api, locations, a.radius) ==>
            |out| == 3 + Presenter.LineCount(fetched.value)
            && out[3..] == Presenter.DisplayAsWritten(fetched.value))
      && (!Orchestrator.AllFetched(api, locations, a.radius) ==>
            out[3..] == [ErrorLine(Rejected(fetched.error))])
  {
    var a := Args.Parse(args);
    var locations := a.locations.addresses;
    var config := ConfigurationText(a.radius, locations);
    var fetched := Orchestrator.FetchEach(api, locations, a.radius);
    assert Configuration(a) == Success(config);
    assert Run(args, api) == Prelude(config) + Outcome(fetched, Presenter.AsWritten);
  }
}

=== FILE: search.dfy ===
/** The request URL of a business search: the fixed host, the search endpoint,
    and the location and radius concatenated into the query string without any
    percent-encoding. */
module Search {
  import opened Wrappers
  import Text
  import Args

  /** The API host every endpoint is appended to. */
  const MainHost: string := "https://api.yelp.com/v3"

  /** The business-search endpoint. */
  const SearchEndpoint: string := "/businesses/search"

  /** The part of a search URL that comes before the location. */
  const LocationPrefix: string := MainHost + SearchEndpoint + "?location="

  /** The text between the location and the radius. */
  const RadiusKey: string := "&radius="

  /** The endpoint path with its query string, as `fetchBusinesses` builds it. */
  function SearchPath(location: string, radius: Args.Radius): string
  {
    SearchEndpoint + "?location=" + location + "&" + "radius=" + Args.RadiusText(radius)
  }

  /** The absolute URL `fetch` requests for an endpoint. */
  function RequestUrl(endpoint: string): string
  {
    MainHost + endpoint
  }

  /** The URL requested for one location. */
  function SearchUrl(location: string, radius: Args.Radius): string
  {
    RequestUrl(SearchPath(location, radius))
  }

  /** Index of the first `c` in `s`, or `|s|` when there is none. */
  function IndexOf(s: string, c: char): (k: nat)
    ensures k <= |s|
    ensures forall j :: 0 <= j < k ==> s[j] != c
    ensures k < |s| ==> s[k] == c
  {
    if s == [] then 0
    else if s[0] == c then 0
    else 1 + IndexOf(s[1..], c)
  }

  /** How a server reads a search URL back: the location runs from the prefix
      to the first '&', which must open "&radius="; the radius is the rest. */
  function ReadSearchUrl(url: string): Option<(string, string)>
  {
    if |url| < |LocationPrefix| || url[..|LocationPrefix|] != LocationPrefix then None
    else
      var query := url[|LocationPrefix|..];
      var k := IndexOf(query, '&');
      if k + |RadiusKey| <= |query| && query[k..k + |RadiusKey|] == RadiusKey then
        Some((query[..k], query[k + |RadiusKey|..]))
      else None
  }

  /** `fetch` requests the host followed by the endpoint, nothing in between
      and nothing after. */
  lemma RequestUrlLayout(endpoint: string)
    ensures |RequestUrl(endpoint)| == |MainHost| + |endpoint|
    ensures RequestUrl(endpoint)[..|MainHost|] == MainHost
    ensures RequestUrl(endpoint)[|MainHost|..] == endpoint
  {
  }

  /** The search path carries the location and the radius text verbatim, at
      fixed offsets: endpoint, "?location=", location, "&radius=", radius. */
  lemma SearchPathLayout(location: string, radius: Args.Radius)
    ensures var p := SearchPath(location, radius);
      var start := |SearchEndpoint| + |"?location="|;
      var rt := Args.RadiusText(radius);
      && |p| == start + |location| + |RadiusKey| + |rt|
      && p[start..start + |location|] == location
      && p[start + |location|..start + |location| + |RadiusKey|] == RadiusKey
      && p[start + |location| + |RadiusKey|..] == rt
  {
    var p := SearchPath(location, radius);
    var start := |SearchEndpoint| + |"?location="|;
    var rt := Args.RadiusText(radius);
    assert p == (SearchEndpoint + "?location=") + location + RadiusKey + rt;
  }

  /** The URL is the fixed prefix, the location verbatim, "&radius=", and the
      radius text verbatim. */
  lemma SearchUrlLayout(location: string, radius: Args.Radius)
    ensures SearchUrl(location, radius) == LocationPrefix + location + RadiusKey + Args.RadiusText(radius)
  {
    var rt := Args.RadiusText(radius);
    assert "&" + "radius=" == RadiusKey;
    assert SearchPath(location, radius) == (SearchEndpoint + "?location=") + (location + RadiusKey + rt);
    assert MainHost + ((SearchEndpoint + "?location=") + (location + RadiusKey + rt))
        == LocationPrefix + (location + RadiusKey + rt);
  }

  /** A location without '&' and any radius are read back from the URL exactly:
      nothing is encoded, so the URL carries them verbatim. */
  lemma SearchUrlRoundTrip(location: string, radius: Args.Radius)
    requires '&' !in location
    ensures ReadSearchUrl(SearchUrl(location, radius)) == Some((location, Args.RadiusText(radius)))
  {
    SearchUrlLayout(location, radius);
    ReadQuery(location, Args.RadiusText(radius));
  }

  /** The reader splits a query laid out as prefix, an '&'-free location,
      "&radius=" and a radius text back into the two parts. */
  lemma ReadQuery(location: string, rt: string)
    requires '&' !in location
    ensures ReadSearchUrl(LocationPrefix + location + RadiusKey + rt) == Some((location, rt))
  {
    var url := LocationPrefix + location + RadiusKey + rt;
    assert url[..|LocationPrefix|] == LocationPrefix;
    var query := url[|LocationPrefix|..];
    assert query == location + RadiusKey + rt;
    assert query[|location|] == '&';
    var k := IndexOf(query, '&');
    assert k == |location|;
    assert query[k..k + |RadiusKey|] == RadiusKey;
    assert query[..k] == location;
    assert query[k + |RadiusKey|..] == rt;
  }

  /** Two different searches can request the same URL: a location holding
      "&radius=" is indistinguishable from a shorter location with a longer
      radius, because neither part is encoded. */
  lemma SearchUrlAmbiguous(location: string, x: string, y: string)
    ensures location + RadiusKey + x != location
    ensures SearchUrl(location + RadiusKey + x, Args.Given(y))
         == SearchUrl(location, Args.Given(x + RadiusKey + y))
  {
    SearchUrlLayout(location + RadiusKey + x, Args.Given(y));
    SearchUrlLayout(location, Args.Given(x + RadiusKey + y));
    assert |location + RadiusKey + x| > |location|;
  }

  /** Searches for '&'-free locations request different URLs unless both the
      location and the radius text agree. */
  lemma SearchUrlInjective(l1: string, r1: Args.Radius, l2: string, r2: Args.Radius)
    requires '&' !in l1 && '&' !in l2
    requires SearchUrl(l1, r1) == SearchUrl(l2, r2)
    ensures l1 == l2 && Args.RadiusText(r1) == Args.RadiusText(r2)
  {
    SearchUrlRoundTrip(l1, r1);
    SearchUrlRoundTrip(l2, r2);
  }
}

=== FILE: text.dfy ===
/** String helpers the command line relies on: JavaScript's `trim`, `split` on a
    literal separator, `join`, and the decimal rendering of integers that string
    concatenation (`distance + "m"`, `"radius=" + 1000`) performs. */
module Text {

  // ---------------------------------------------------------------------------
  // Whitespace and trim
  // ---------------------------------------------------------------------------

  /** The characters `String.prototype.trim` removes: ECMAScript WhiteSpace
      (tab, vertical tab, form feed, space, no-break space, byte order mark and
      the Unicode space separators) and LineTerminator (LF, CR, LS, PS). */
  const Whitespace: set<char> := {
    '\t', '\n', '\U{000B}', '\U{000C}', '\r', ' ', '\U{00A0}', '\U{1680}',
    '\U{2000}', '\U{2001}', '\U{2002}', '\U{2003}', '\U{2004}', '\U{2005}',
    '\U{2006}', '\U{2007}', '\U{2008}', '\U{2009}', '\U{200A}',
    '\U{2028}', '\U{2029}', '\U{202F}', '\U{205F}', '\U{3000}', '\U{FEFF}'
  }

  /** Every character of `s` is in `ws`. The trimming functions below take
      the set of whitespace characters as a parameter `ws`; the script's
      `trim` is `Trim`, which fixes it to `Whitespace`. */
  predicate AllWhitespace(s: string, ws: set<char>) {
    forall i :: 0 <= i < |s| ==> s[i] in ws
  }

  /** Neither the first nor the last character is whitespace. */
  predicate NoEdgeWhitespace(s: string, ws: set<char>) {
    s == [] || (s[0] !in ws && s[|s| - 1] !in ws)
  }

  /** `s` is `r` with some whitespace before and some whitespace after. */
  ghost predicate Padded(s: string, r: string, ws: set<char>) {
    exists lead: string, trail: string ::
      AllWhitespace(lead, ws) && AllWhitespace(trail, ws) && s == lead + r + trail
  }

  /** Drops the leading whitespace: the result is a suffix of `s`, what was
      dropped is all whitespace, and the result does not start with whitespace. */
  function TrimStart(s: string, ws: set<char>): (r: string)
    ensures |r| <= |s| && r == s[|s| - |r|..]
    ensures AllWhitespace(s[..|s| - |r|], ws)
    ensures r == [] || r[0] !in ws
  {
    if s == [] || s[0] !in ws then s else TrimStart(s[1..], ws)
  }

  /** Drops the trailing whitespace: the result is a prefix of `s`, what was
      dropped is all whitespace, and the result does not end with whitespace. */
  function TrimEnd(s: string, ws: set<char>): (r: string)
    ensures |r| <= |s| && r == s[..|r|]
    ensures AllWhitespace(s[|r|..], ws)
    ensures r == [] || r[|r| - 1] !in ws
  {
    if s == [] || s[|s| - 1] !in ws then s else TrimEnd(s[..|s| - 1], ws)
  }

  /** Drops the whitespace at both ends: the result has none at either end,
      and `s` is the result with only whitespace around it. */
  function TrimBoth(s: string, ws: set<char>): (r: string)
    ensures NoEdgeWhitespace(r, ws)
    ensures Padded(s, r, ws)
  {
    var t := TrimStart(s, ws);
    var r := TrimEnd(t, ws);
    TrimParts(s, t, r, ws);
    r
  }

  /** `String.prototype.trim`: the interior of `s` between its leading and its
      trailing whitespace, characters unchanged. */
  function Trim(s: string): (r: string)
    ensures NoEdgeWhitespace(r, Whitespace)
    ensures Padded(s, r, Whitespace)
  {
    TrimBoth(s, Whitespace)
  }

  /** The two halves of `Trim` compose: a core without edge whitespace, with
      only whitespace around it. */
  lemma TrimParts(s: string, t: string, r: string, ws: set<char>)
    requires |t| <= |s| && t == s[|s| - |t|..] && AllWhitespace(s[..|s| - |t|], ws)
    requires t == [] || t[0] !in ws
    requires |r| <= |t| && r == t[..|r|] && AllWhitespace(t[|r|..], ws)
    requires r == [] || r[|r| - 1] !in ws
    ensures NoEdgeWhitespace(r, ws)
    ensures Padded(s, r, ws)
  {
  }

  /** Removing exactly the first `k` characters is what `TrimStart` does when
      they are whitespace and the next one is not. */
  lemma {:induction false} TrimStartExact(s: string, k: nat, ws: set<char>)
    requires k <= |s| && AllWhitespace(s[..k], ws)
    requires k == |s| || s[k] !in ws
    ensures TrimStart(s, ws) == s[k..]
    decreases k
  {
    if k > 0 {
      assert s[..k][0] in ws;
      var w := s[1..][..k - 1];
      assert AllWhitespace(w, ws) by {
        forall i | 0 <= i < |w| ensures w[i] in ws {
          assert w[i] == s[..k][i + 1];
        }
      }
      TrimStartExact(s[1..], k - 1, ws);
      assert s[1..][k - 1..] == s[k..];
    }
  }

  /** Symmetric to `TrimStartExact`, for the trailing `k` characters. */
  lemma TrimEndExact(s: string, k: nat, ws: set<char>)
    requires k <= |s| && AllWhitespace(s[|s| - k..], ws)
    requires k == |s| || s[|s| - k - 1] !in ws
    ensures TrimEnd(s, ws) == s[..|s| - k]
    decreases k
  {
  }

  /** Trimming whitespace, a core without edge whitespace, and whitespace
      leaves the core. */
  lemma TrimPadding(lead: string, r: string, trail: string, ws: set<char>)
    requires AllWhitespace(lead, ws) && AllWhitespace(trail, ws)
    requires NoEdgeWhitespace(r, ws)
    ensures TrimBoth(lead + r + trail, ws) == r
  {
    if r == [] {
      assert lead + r + trail == lead + trail;
      TrimBlank(lead, trail, ws);
      assert TrimEnd([], ws) == [];
    } else {
      assert lead + r + trail == lead + (r + trail);
      TrimStartPadding(lead, r + trail, ws);
      TrimEndPadding(r, trail, ws);
    }
  }

  /** Whitespace only trims to nothing. */
  lemma TrimBlank(lead: string, trail: string, ws: set<char>)
    requires AllWhitespace(lead, ws) && AllWhitespace(trail, ws)
    ensures TrimStart(lead + trail, ws) == []
  {
  }

  /** Leading whitespace before a non-whitespace character is exactly what
      `TrimStart` drops. */
  lemma TrimStartPadding(lead: string, t: string, ws: set<char>)
    requires AllWhitespace(lead, ws) && t != [] && t[0] !in ws
    ensures TrimStart(lead + t, ws) == t
  {
    var s := lead + t;
    assert s[..|lead|] == lead;
    assert s[|lead|] == t[0];
    TrimStartExact(s, |lead|, ws);
    assert s[|lead|..] == t;
  }

  /** Trailing whitespace after a non-whitespace character is exactly what
      `TrimEnd` drops. */
  lemma TrimEndPadding(r: string, trail: string, ws: set<char>)
    requires AllWhitespace(trail, ws) && r != [] && r[|r| - 1] !in ws
    ensures TrimEnd(r + trail, ws) == r
  {
    var t := r + trail;
    assert t[|t| - |trail|..] == trail;
    assert t[|t| - |trail| - 1] == r[|r| - 1];
    TrimEndExact(t, |trail|, ws);
    assert t[..|t| - |trail|] == r;
  }

  /** `Trim` is the only way to read `s` as whitespace, a core without edge
      whitespace, and whitespace. */
  lemma TrimUnique(s: string, r: string)
    requires Padded(s, r, Whitespace) && NoEdgeWhitespace(r, Whitespace)
    ensures Trim(s) == r
  {
    var lead, trail :| AllWhitespace(lead, Whitespace) && AllWhitespace(trail, Whitespace) && s == lead + r + trail;
    TrimPadding(lead, r, trail, Whitespace);
  }

  /** Trimming twice is trimming once. */
  lemma TrimIdempotent(s: string)
    ensures Trim(Trim(s)) == Trim(s)
  {
  }

  // ---------------------------------------------------------------------------
  // Join and split on a literal separator
  // ---------------------------------------------------------------------------

  /** `Array.prototype.join(sep)`: the pieces with `sep` between neighbours. */
  function Join(ps: seq<string>, sep: string): (r: string)
    ensures ps == [] ==> r == ""
    ensures ps != [] ==> |r| + |sep| == TotalLength(ps) + |ps| * |sep|
    ensures ps != [] ==> r[..|ps[0]|] == ps[0]
    ensures |ps| == 1 ==> r == ps[0]
  {
    if |ps| == 0 then ""
    else if |ps| == 1 then ps[0]
    else
      var rest := Join(ps[1..], sep);
      assert (|ps| - 1) * |sep| + |sep| == |ps| * |sep|;
      ps[0] + sep + rest
  }

  /** Joining two non-empty lists is joining each and putting one separator
      between them; with `Join([p], sep) == p` this determines `Join`. */
  lemma {:induction false} JoinAppend(a: seq<string>, b: seq<string>, sep: string)
    requires a != [] && b != []
    ensures Join(a + b, sep) == Join(a, sep) + sep + Join(b, sep)
    decreases |a|
  {
    if |a| == 1 {
      assert (a + b)[1..] == b;
    } else {
      assert (a + b)[1..] == a[1..] + b;
      JoinAppend(a[1..], b, sep);
    }
  }

  /** The number of characters in all the pieces together. */
  function TotalLength(ps: seq<string>): nat
  {
    if ps == [] then 0 else |ps[0]| + TotalLength(ps[1..])
  }

  /** The delimiter of the locations argument. */
  const Separator: string := "&&"

  /** `s` has an occurrence of "&&" starting at index `k`. */
  predicate SeparatorAt(s: string, k: int) {
    0 <= k && k + 1 < |s| && s[k] == '&' && s[k + 1] == '&'
  }

  predicate HasSeparator(s: string) {
    exists k :: 0 <= k < |s| && SeparatorAt(s, k)
  }

  /** `s.split("&&")`: the text between the non-overlapping occurrences of
      "&&" found scanning left to right; always at least one piece. */
  function Split(s: string): (r: seq<string>)
    ensures |r| >= 1
    decreases |s|
  {
    if |s| < 2 then [s]
    else if s[0] == '&' && s[1] == '&' then [""] + Split(s[2..])
    else
      var rest := Split(s[1..]);
      [[s[0]] + rest[0]] + rest[1..]
  }

  /** Number of non-overlapping occurrences of "&&" counted left to right. */
  function CountSeparators(s: string): nat
    decreases |s|
  {
    if |s| < 2 then 0
    else if s[0] == '&' && s[1] == '&' then 1 + CountSeparators(s[2..])
    else CountSeparators(s[1..])
  }

  /** Splitting yields one more piece than there are separators. */
  lemma {:induction false} SplitCount(s: string)
    ensures |Split(s)| == CountSeparators(s) + 1
    decreases |s|
  {
    if |s| < 2 {
    } else if s[0] == '&' && s[1] == '&' {
      SplitCount(s[2..]);
    } else {
      SplitCount(s[1..]);
    }
  }

  /** Re-joining the pieces with "&&" gives back the original string. */
  lemma {:induction false} JoinSplit(s: string)
    ensures Join(Split(s), Separator) == s
    decreases |s|
  {
    if |s| < 2 {
    } else if s[0] == '&' && s[1] == '&' {
      JoinSplit(s[2..]);
      var rest := Split(s[2..]);
      assert Split(s) == [""] + rest;
      assert (([""] + rest)[1..]) == rest;
      assert s == "" + Separator + s[2..];
    } else {
      JoinSplit(s[1..]);
      var rest := Split(s[1..]);
      JoinExtendFirst(s[0], rest, Separator);
      assert s == [s[0]] + s[1..];
    }
  }

  /** Putting a character in front of the first piece puts it in front of
      the join. */
  lemma JoinExtendFirst(c: char, ps: seq<string>, sep: string)
    requires ps != []
    ensures Join([[c] + ps[0]] + ps[1..], sep) == [c] + Join(ps, sep)
  {
    var r := [[c] + ps[0]] + ps[1..];
    if |ps| > 1 {
      assert r[1..] == ps[1..];
    }
  }

  /** The pieces `Split` can produce: none contains "&&", and none but the last
      ends with '&' (else the leftmost scan would have cut earlier). */
  predicate WellFormedPieces(ps: seq<string>) {
    && |ps| >= 1
    && (forall i :: 0 <= i < |ps| ==> !HasSeparator(ps[i]))
    && (forall i :: 0 <= i < |ps| - 1 ==> ps[i] == [] || ps[i][|ps[i]| - 1] != '&')
  }

  /** A piece without "&&" is not cut. */
  lemma {:induction false} SplitWithoutSeparator(p: string)
    requires !HasSeparator(p)
    ensures Split(p) == [p]
    decreases |p|
  {
    if |p| >= 2 {
      assert !SeparatorAt(p, 0);
      assert !HasSeparator(p[1..]) by {
        forall k | SeparatorAt(p[1..], k) ensures false {
          assert SeparatorAt(p, k + 1);
        }
      }
      SplitWithoutSeparator(p[1..]);
      assert [p[0]] + p[1..] == p;
    }
  }

  /** The leftmost cut falls right after a well-formed first piece. */
  lemma {:induction false} SplitAfterPiece(p: string, t: string)
    requires !HasSeparator(p) && (p == [] || p[|p| - 1] != '&')
    ensures Split(p + Separator + t) == [p] + Split(t)
    decreases |p|
  {
    var s := p + Separator + t;
    if p == [] {
      assert s == "&&" + t;
      assert s[2..] == t;
    } else {
      var p' := p[1..];
      assert !HasSeparator(p') by {
        forall k | SeparatorAt(p', k) ensures false {
          assert SeparatorAt(p, k + 1);
        }
      }
      assert p' == [] || p'[|p'| - 1] != '&' by {
        if p' != [] { assert p'[|p'| - 1] == p[|p| - 1]; }
      }
      SplitAfterPiece(p', t);
      assert s[1..] == p' + Separator + t;
      assert !(s[0] == '&' && s[1] == '&') by {
        if |p| == 1 {
          assert s[0] == p[0] == p[|p| - 1];
        } else {
          assert !SeparatorAt(p, 0);
        }
      }
      assert [s[0]] + p' == p;
    }
  }

  /** Splitting a join of well-formed pieces gives back the pieces. */
  lemma {:induction false} SplitJoin(ps: seq<string>)
    requires WellFormedPieces(ps)
    ensures Split(Join(ps, Separator)) == ps
    decreases |ps|
  {
    if |ps| == 1 {
      SplitWithoutSeparator(ps[0]);
    } else {
      assert WellFormedPieces(ps[1..]) by {
        forall i | 0 <= i < |ps| - 1 ensures !HasSeparator(ps[1..][i]) {
          assert ps[1..][i] == ps[i + 1];
        }
        forall i | 0 <= i < |ps| - 2
          ensures ps[1..][i] == [] || ps[1..][i][|ps[1..][i]| - 1] != '&'
        {
          assert ps[1..][i] == ps[i + 1];
        }
      }
      SplitJoin(ps[1..]);
      SplitAfterPiece(ps[0], Join(ps[1..], Separator));
      assert [ps[0]] + ps[1..] == ps;
    }
  }

  /** Every result of `Split` is well formed; with `JoinSplit` and `SplitJoin`
      this makes `Split` and `Join(_, "&&")` mutually inverse bijections
      between strings and well-formed piece lists. */
  lemma {:induction false} SplitWellFormed(s: string)
    ensures WellFormedPieces(Split(s))
    decreases |s|
  {
    if |s| < 2 {
      assert !HasSeparator(s) by {
        forall k | 0 <= k < |s| && SeparatorAt(s, k) ensures false { }
      }
    } else if s[0] == '&' && s[1] == '&' {
      SplitWellFormed(s[2..]);
      WellFormedAfterEmpty(Split(s[2..]));
    } else {
      SplitWellFormed(s[1..]);
      SplitHeadIsPrefix(s[1..]);
      WellFormedAfterChar(s[0], s[1..], Split(s[1..]));
    }
  }

  /** An empty piece may start a well-formed list. */
  lemma WellFormedAfterEmpty(rest: seq<string>)
    requires WellFormedPieces(rest)
    ensures WellFormedPieces([""] + rest)
  {
  }

  /** Gluing a character `c` onto the first piece of the split of `t` keeps the
      list well formed, provided `c` and `t` do not start with "&&" together. */
  lemma WellFormedAfterChar(c: char, t: string, rest: seq<string>)
    requires WellFormedPieces(rest)
    requires t != [] && !(c == '&' && t[0] == '&')
    requires |rest[0]| <= |t| && t[..|rest[0]|] == rest[0]
    requires |rest| > 1 ==> |rest[0]| + 2 <= |t| && t[|rest[0]|..|rest[0]| + 2] == Separator
    ensures WellFormedPieces([[c] + rest[0]] + rest[1..])
  {
    var head := [c] + rest[0];
    var r := [head] + rest[1..];
    assert !HasSeparator(head) by {
      forall k | 0 <= k < |head| ensures !SeparatorAt(head, k) {
        if k > 0 {
          assert !SeparatorAt(rest[0], k - 1);
        } else if rest[0] != [] {
          assert rest[0][0] == t[0];
        }
      }
    }
    assert |rest| > 1 ==> head[|head| - 1] != '&' by {
      if |rest| > 1 && rest[0] == [] {
        assert t[..2] == Separator;
      } else if |rest| > 1 {
        assert head[|head| - 1] == rest[0][|rest[0]| - 1];
      }
    }
    forall i | 0 <= i < |r| ensures !HasSeparator(r[i]) {
      if i > 0 { assert r[i] == rest[i]; }
    }
    forall i | 0 <= i < |r| - 1 ensures r[i] == [] || r[i][|r[i]| - 1] != '&' {
      if i > 0 { assert r[i] == rest[i]; }
    }
  }

  /** The first piece is a prefix of the input, followed by "&&" when more
      pieces come. */
  lemma SplitHeadIsPrefix(s: string)
    ensures |Split(s)[0]| <= |s| && s[..|Split(s)[0]|] == Split(s)[0]
    ensures |Split(s)| > 1 ==>
      |Split(s)[0]| + 2 <= |s| && s[|Split(s)[0]|..|Split(s)[0]| + 2] == Separator
  {
  }

  // ---------------------------------------------------------------------------
  // Decimal rendering
  // ---------------------------------------------------------------------------

  predicate IsDigit(c: char) {
    '0' <= c <= '9'
  }

  predicate AllDigits(s: string) {
    forall i :: 0 <= i < |s| ==> IsDigit(s[i])
  }

  function DigitChar(d: nat): (c: char)
    requires d < 10
    ensures IsDigit(c) && c as int - '0' as int == d
  {
    ['0', '1', '2', '3', '4', '5', '6', '7', '8', '9'][d]
  }

  /** The value of a string of decimal digits; the empty string reads as 0. */
  function DecimalValue(s: string): nat
    requires AllDigits(s)
  {
    if s == [] then 0
    else DecimalValue(s[..|s| - 1]) * 10 + (s[|s| - 1] as int - '0' as int)
  }

  /** What JavaScript prints for a non-negative integer: its shortest decimal
      digit string, "0" for zero. */
  function NatToString(n: nat): (r: string)
    ensures r != [] && AllDigits(r)
    ensures r[0] == '0' ==> n == 0
    ensures |r| > 1 ==> r[0] != '0'
    decreases n
  {
    if n < 10 then [DigitChar(n)] else NatToString(n / 10) + [DigitChar(n % 10)]
  }

  /** What JavaScript prints for an integer: a minus sign before the digits of a
      negative value. */
  function IntToString(n: int): string
  {
    if n < 0 then "-" + NatToString(-n) else NatToString(n)
  }

  /** Reading back the printed digits gives the number. */
  lemma {:induction false} DecimalRoundTrip(n: nat)
    ensures DecimalValue(NatToString(n)) == n
    decreases n
  {
    if n >= 10 {
      DecimalRoundTrip(n / 10);
      var s := NatToString(n);
      assert s[..|s| - 1] == NatToString(n / 10);
    }
  }

  /** The printed form starts with '-' exactly for negative numbers, and the
      digits after the sign read back as the absolute value. */
  lemma IntToStringReadsBack(n: int)
    ensures var r := IntToString(n);
      && r != [] && (r[0] == '-' <==> n < 0)
      && var digits := if n < 0 then r[1..] else r;
      && digits != [] && AllDigits(digits)
      && DecimalValue(digits) == (if n < 0 then -n else n)
  {
    if n < 0 {
      DecimalRoundTrip(-n);
      assert IntToString(n)[1..] == NatToString(-n);
    } else {
      DecimalRoundTrip(n);
    }
  }

  /** Different naturals print differently. */
  lemma NatToStringInjective(a: nat, b: nat)
    requires NatToString(a) == NatToString(b)
    ensures a == b
  {
    DecimalRoundTrip(a);
    DecimalRoundTrip(b);
  }

  /** Different integers print differently. */
  lemma IntToStringInjective(m: int, n: int)
    requires IntToString(m) == IntToString(n)
    ensures m == n
  {
    IntToStringReadsBack(m);
    IntToStringReadsBack(n);
    var s := IntToString(m);
    if s[0] == '-' {
      assert DecimalValue(s[1..]) == -m == -n;
    } else {
      assert DecimalValue(s) == m == n;
    }
  }

  /** A digit string without a leading zero is the printed form of its value. */
  lemma {:induction false} DigitsPrintBack(s: string)
    requires s != [] && AllDigits(s)
    ensures NatToString(DecimalValue(s)) == s || s[0] == '0'
    decreases |s|
  {
    if |s| > 1 && s[0] != '0' {
      var init := s[..|s| - 1];
      DigitsPrintBack(init);
      DecimalValueAtLeastTen(s);
      var n := DecimalValue(s);
      var d := s[|s| - 1] as int - '0' as int;
      assert n / 10 == DecimalValue(init) && n % 10 == d;
      assert DigitChar(d) == s[|s| - 1];
      assert s == init + [s[|s| - 1]];
    } else if |s| == 1 {
      assert DigitChar(s[0] as int - '0' as int) == s[0];
    }
  }

  /** A digit string of two or more digits that does not start with '0' has a
      value of at least ten. */
  lemma {:induction false} DecimalValueAtLeastTen(s: string)
    requires |s| >= 2 && AllDigits(s) && s[0] != '0'
    ensures DecimalValue(s) >= 10
    decreases |s|
  {
    var init := s[..|s| - 1];
    if |init| >= 2 {
      DecimalValueAtLeastTen(init);
    } else {
      assert init == [s[0]];
      assert DecimalValue(init) == s[0] as int - '0' as int;
    }
  }
}

=== FILE: wrappers.dfy ===
/** Option and Result: the two failure-aware wrappers the rest of the model uses.
    `Option` stands for JavaScript's `undefined`-or-value fields and arguments,
    `Result` for a promise that either resolves with a value or rejects. */
module Wrappers {

  datatype Option<+T> = None | Some(value: T)

  datatype Result<+R, +E> = Success(value: R) | Failure(error: E)
}
